=== FILE: README.md ===
# pss — process selection and termination, modelled in Dafny

`pss` is a command-line tool that finds operating-system processes by glob pattern and then
lists them, or kills them, or both. A kill is either polite, or forceful, or a "zap": a polite
kill, a wait, then a forceful kill of the processes still running. This project models the pure
core of the tool:

- `regexpEscape` (lib/regexpEscape.js) puts a backslash in front of the fourteen regex
  metacharacters `| \ { } ( ) [ ] ^ $ + * ? .` (module `RegexpEscape`).
- `stringReplaceLast` (lib/stringReplaceLast.js) replaces the last occurrence of a literal search
  string. The search string is escaped into a global regular expression. The hits of a
  left-to-right scan that does not overlap them are collected, and the last hit is spliced out
  (module `StringReplaceLast`).
- The run in app.js (modules `CliOptions`, `Selection`, `Phases`, `RunProperties`):
  - option defaulting and the force/zap conflict (app.js:41-43);
  - the glob list (app.js:49);
  - the selection filter that skips the tool's own process (app.js:56-59);
  - the optional interactive pick;
  - the phases: list, polite kill, wait, zap recheck and forceful kill (app.js:79-121);
  - the exit status.

Strings are `seq<char>`. A run is a pure function `Run(options, env)`. It returns an `Outcome`: the
list of observable `Event`s (list lines, kill announcements, `taskkill` calls, the wait, the
warning printed on error) and the exit status. `env` carries the collaborators the code calls but
does not define: the process table, the tool's own pid, the glob matcher, the operator's
interactive choice, a liveness test and the highlighting function.

`RunAsWritten` is the run as app.js has it. `Run` is the same run with the three defects under
"## Findings" corrected. The tool's properties are proved about `Run`.

## Model

| member | source | states |
|---|---|---|
| RegexpEscape.Escape | lib/regexpEscape.js:7-9 | the output is as long as the input plus the number of metacharacters in it |
| RegexpEscape.EscapeAt | lib/regexpEscape.js:8 | character `i` of the input is found in the escape after `i` characters plus one backslash per metacharacter before it: a metacharacter appears there as a backslash followed by itself, any other character as itself |
| RegexpEscape.EscapeAppend | lib/regexpEscape.js:8 | escaping works character by character, in order: the escape of `a + b` is the escape of `a` followed by the escape of `b` |
| RegexpEscape.EscapePlain | lib/regexpEscape.js:8 | a string with no metacharacters, the empty string included, comes back unchanged |
| RegexpEscape.UnescapeEscape | lib/regexpEscape.js:8 | deleting each backslash placed before a metacharacter gives back the input exactly |
| RegexpEscape.EscapeUnescape | lib/regexpEscape.js:8 | every string the reader accepts is the escape of the literal it reads to, so escaping and reading back are inverse |
| RegexpEscape.EscapeInjective | lib/regexpEscape.js:8 | different inputs have different escapes |
| RegexpEscape.EscapeExample | lib/regexpEscape.js:8 | `-` and `/` are not escaped but `.` is: `a-b/c.d` becomes `a-b/c\.d` |
| StringReplaceLast.Hits | lib/stringReplaceLast.js:12-14 | every index the scan reports is an occurrence of the search string at or after the scan's start |
| StringReplaceLast.HitsAreGreedy | lib/stringReplaceLast.js:12-14 | the scan reports occurrences in increasing order, at least one step apart (the search string's length, or one for an empty one); no occurrence is skipped before the first hit, between hits or after the last hit |
| StringReplaceLast.GreedyScanUnique | lib/stringReplaceLast.js:12-14 | only one sequence fits that description, so the description defines the scan's result |
| StringReplaceLast.LastHit | lib/stringReplaceLast.js:12-14 | the last hit, when there is one, is an occurrence of the search string |
| StringReplaceLast.LastHitSpec | lib/stringReplaceLast.js:12-16 | there is a last hit exactly when the search string occurs somewhere; no occurrence starts one step or more after the last hit |
| StringReplaceLast.LastHitCoversRightmost | lib/stringReplaceLast.js:12-14 | every occurrence starts before the last hit's step ends, so the rightmost occurrence is within one step of the hit that gets replaced |
| StringReplaceLast.ReplaceLast | lib/stringReplaceLast.js:11-21 | with no hit the input comes back unchanged; with a last hit at `i`, the result keeps the text before `i`, and its length is that of `str` minus that of `match` plus that of the inserted text |
| StringReplaceLast.ReplaceLastHit | lib/stringReplaceLast.js:16-19 | on a hit at `i`, the search string `match` occurs at `i`; the result is the text before `i`, then the replacement `r`, then the text after the hit; its length is that of `str` minus that of `match` plus that of `r`; the text before `i` and after the hit is unchanged |
| StringReplaceLast.ReplaceLastSuffixClean | lib/stringReplaceLast.js:12-19 | a non-empty search string does not occur in the text after the replaced hit |
| StringReplaceLast.ReplaceLastMiss | lib/stringReplaceLast.js:16-20 | if a non-empty search string does not occur, the input is returned unchanged |
| StringReplaceLast.ReplaceLastEmpty | lib/stringReplaceLast.js:13-19 | an empty search string gets its last hit at the end of `str`, so the replacement text is appended |
| StringReplaceLast.ReplaceLastOverlap | lib/stringReplaceLast.js:12-19 | in `"aaa"` the search string `"aa"` also occurs at 1, but the scan hits only at 0, so the result is `"Xa"` |
| StringReplaceLast.ReplaceLastVerbatim | lib/stringReplaceLast.js:13-18 | the metacharacter `.` is matched literally, and a string replacement `$&` is inserted as it is, with no expansion |
| StringReplaceLast.ReplaceLastComputed | lib/stringReplaceLast.js:18 | a function replacement is called with the search string, and what it returns is spliced in |
| CliOptions.Defaulted | app.js:41-43 | list is set exactly when none of kill, force, zap or list was given; the other flags are left alone; an empty glob list becomes `['*']` with surround off; a non-empty one is kept along with its surround setting |
| CliOptions.Normalise | app.js:41-43 | force together with zap is an error, and the error carries the source's message; otherwise some action is requested and every other setting is unchanged |
| CliOptions.NormaliseIdempotent | app.js:41-43 | normalising an already normalised option record changes nothing |
| CliOptions.Surround | app.js:49 | a surrounded glob is the argument between two `*`s, two characters longer |
| CliOptions.Patterns | app.js:49 | the glob list has one entry per argument |
| CliOptions.PatternAt | app.js:49 | entry `k` comes from argument `k`: wrapped in `*` when surround is set, unchanged otherwise |
| CliOptions.PatternsSpec | app.js:49 | with surround, every entry starts and ends with `*`, and removing those gives back its argument; without surround, every entry is its argument |
| CliOptions.NoGlobsMatchEverything | app.js:43-49 | with no positional globs the matcher receives exactly `['*']` |
| CliOptions.DefaultIsListOnly | app.js:41 | `pss <globs>` with no action flag lists and kills nothing |
| Selection.Keep | app.js:57-58 | the filter test for one process: under skip-self its pid is not the tool's own, and the matcher accepts its name (with `--name`) or its command line; what it means for the table is stated by `Selection.Select` |
| Selection.Select | app.js:56-59 | the selection is a subsequence of the process table in its original order; a process is selected exactly when the matcher accepts its name (with `--name`) or its command line, and, under skip-self, its pid is not the tool's own |
| Selection.SelectIgnoresSelfPid | app.js:57 | without skip-self the tool's own pid plays no part in the selection |
| Selection.SelectAppend | app.js:56-59 | selecting from two parts of the table and concatenating gives the selection from the whole table |
| Selection.SelectIdempotent | app.js:56-59 | selecting again from a selection changes nothing |
| Selection.SelectAllWhenEverythingMatches | app.js:56-59 | when the matcher accepts every process, the selection is the table, in order, with the rows carrying the tool's own pid dropped under skip-self; without skip-self it is the whole table |
| Phases.Candidates | app.js:56-78 | every process handed to the phases is in the selection, so it is in the table and, under skip-self, does not carry the tool's own pid; in interactive mode the candidates are the picker's answer in its order, keeping exactly the picked processes that were shown; otherwise the candidates are the whole selection, which is a subsequence of the table |
| Phases.Line | app.js:83-84 | a process's printed command line is its command line unchanged when the command name does not occur in it; otherwise the length changes by that of the highlighted name minus that of the command name; that the last occurrence is replaced by the highlighted name is stated by `StringReplaceLast.ReplaceLastComputed` |
| Phases.PoliteStageAsWritten | app.js:79-96 | the first phase as written prints list lines only under list, and otherwise only polite announcements and polite kills |
| Phases.PoliteStage | app.js:79-96 | the corrected first phase emits only list lines, polite announcements and polite kills |
| Phases.WaitStage | app.js:97-103 | the wait happens exactly under zap with a non-empty wait string, and reports that string; the wait string is taken to parse |
| Phases.Recheck | app.js:104-112 | the corrected recheck passes on a subsequence of the candidates: under zap, exactly those still alive; otherwise all of them |
| Phases.ForceStage | app.js:113-121 | the forceful phase emits only forceful announcements and forceful kills, and nothing at all without zap or force |
| Phases.RunAsWritten | app.js:38-126 | the source's run ends with status 0 or 1, and with 1 exactly under force, or under zap with at least one candidate; the wait string is taken to parse |
| Phases.Run | app.js:38-126 | the corrected run ends with status 1 exactly when force and zap are both given, and then prints only the configuration error; otherwise it prints no warning; the wait string is taken to parse |
| Phases.PoliteKillCollect | app.js:87-95 | a process gets a polite kill only under kill or zap; the kill is announced unless the list was shown and the run is not verbose |
| Phases.PoliteStepCollect | app.js:80-95 | one process's step prints its list line under list, then its polite kill |
| Phases.PoliteStageCollect | app.js:79-96 | the corrected first phase lists every candidate once under list and politely kills every candidate, in order, under kill or zap; it issues no forceful kill |
| Phases.ForceStageCollect | app.js:113-121 | the forceful phase kills exactly the processes it is given, in order, and only under zap or force; it issues nothing else |
| Phases.ForceStepCollect | app.js:114-120 | one process's forceful step issues a forceful kill of it, announced unless the list was shown and the run is not verbose, and nothing else |
| Phases.WaitStageCollect | app.js:97-103 | the wait neither lists nor kills anything |
| RunProperties.RunCollect | app.js:79-122 | once the options are accepted the run exits with 0, and what it lists and kills comes from the first phase and the forceful phase alone |
| RunProperties.ConfigErrorFirst | app.js:41-46 | force with zap ends with status 1 before anything is listed or killed; the result does not depend on the process table, and the source run gives the same result |
| RunProperties.RunListsAndPolitelyKills | app.js:79-96 | when listing, every candidate is listed once; under kill or zap, exactly the candidates are politely killed, in order; the exit status is 0 |
| RunProperties.RunForcefullyKills | app.js:104-121 | forceful kills go to every candidate under force, to the candidates still alive at the recheck under zap, and to nobody otherwise |
| RunProperties.RunAnnouncesKills | app.js:88-114 | each kill is announced exactly when it is issued, except that a listing run that is not verbose announces no kill |
| RunProperties.ZapMonotone | app.js:104-121 | under zap the forcefully killed pids are a subsequence of the politely killed ones, and each was alive at the recheck |
| RunProperties.ZapAllExited | app.js:104-121 | a zap in which every process has exited by the recheck issues no forceful kill |
| RunProperties.NeverSignalsSelf | app.js:57 | under skip-self the tool never sends a kill, polite or forceful, to its own pid |
| RunProperties.RunIgnoresSelfPid | app.js:57 | without skip-self the run does not depend on the tool's own pid |
| RunProperties.PoliteStageAsWrittenLines | app.js:79-85 | as written, the first phase prints the whole list once for every process it visits |
| RunProperties.ListRepeatedAsWritten | app.js:79-85 | as written, a listing run with `n` candidates prints `n * n` list lines |
| RunProperties.ListRepeatedExample | app.js:79-85 | with two matching processes, `pss node` prints four list lines as written and two as corrected |
| RunProperties.PoliteFirstStageNotForceful | app.js:79-96 | the first phase as written issues no forceful kill |
| RunProperties.ForceFailsAsWritten | app.js:104-113 | as written, `--force` without zap ends with status 1 and issues no forceful kill |
| RunProperties.ZapFailsAsWritten | app.js:104-111 | as written, a zap with at least one candidate ends with status 1 and issues no forceful kill |

## Findings

| source | as written | input that shows it | evidently intended | confidence | as-written member | corrected member |
|---|---|---|---|---|---|---|
| app.js:79-85 | the callback for each process calls `procs.forEach`, so it prints the whole list every time | `pss node` with two matching processes prints four lines | one line for each process | high, not executed | RunProperties.ListRepeatedExample | RunProperties.RunListsAndPolitelyKills |
| app.js:104-113 | when not zapping, the stage at 104-112 returns `undefined`, and app.js:113 calls `.map` on it under `--force` | `pss --force node` exits with status 1 and kills nothing forcefully | every candidate is killed forcefully | high, not executed | RunProperties.ForceFailsAsWritten | RunProperties.RunForcefullyKills |
| app.js:108 | `processExists` is never imported (app.js:10 imports `filterExistingProcesses`), so the recheck throws a `ReferenceError` | `pss --zap node` with one match kills it politely, then exits with status 1 and never kills it forcefully | the processes still alive are killed forcefully | high, not executed | RunProperties.ZapFailsAsWritten | RunProperties.RunForcefullyKills |

Fixing the import would not be enough by itself. `processExists` is asynchronous, so `remains`
would hold a promise, and a promise is always truthy, so the filter would keep every process. The
corrected recheck instead keeps the processes for which the liveness test `env.alive` holds.

## Left out

- The `RegExp` branch of `stringReplaceLast` (lib/stringReplaceLast.js:13) needs general
  regular-expression semantics, and app.js never uses it. In the model, the pattern built from an
  escaped string is read back as a literal (`Unescape`), and the scan runs over that literal.
- Glob matching (`micromatch` with `contains` and `nocase`, app.js:48-54) is a foreign library.
  It is the parameter `Matcher`, called as `isMatch(globs, nocase, field)`. With commander's
  `--no-case`, the case flag defaults to true, so `nocase` is `true` unless `--no-case` is given.
- Command-line parsing (app.js:18-36) is left out. The model starts from the parsed record
  `CliOptions.Options`, where unset flags are `false`.
- Reading the process table (`psList`, app.js:46, including `--all`) is I/O. The table is
  `env.procs`. A process is reduced to the three fields the core reads: pid, name and command line.
- The interactive picker (inquirer and fuzzy, app.js:61-78) is UI. The operator's answer is the
  function `env.chosen`, which receives the candidates shown and returns the picked processes in
  any order. The picker's values are the shown processes themselves, so anything else in the
  answer is dropped. The fuzzy search that narrows what is on screen is not modelled.
- Colour (chalk) is reduced to the highlighting function `env.highlight`. The pid colouring and
  the fixed words printed with each line are not modelled.
- `taskkill` (app.js:94, 120) becomes a `Signalled` event. Rejections are not modelled: every
  request is taken to settle successfully. In the source, a rejected request would end the run
  with status 1.
- Duration parsing (`timestring`) and the timer (app.js:97-103) are reduced to a `Waited` event.
  The wait happens under zap when the wait string is non-empty (truthy in JavaScript).
- Phases.WaitStage: a wait string that `timestring` rejects is taken to parse. In the source the
  call at app.js:99 then throws, so no "Waiting" line is printed and the run goes straight to the
  catch at app.js:123-125. The parser and its error text are not part of this model.
- Phases.Run: its exit status assumes the wait string parses. A zap whose wait string `timestring`
  rejects would end with status 1 after the polite phase, with no recheck and no forceful kill.
- Phases.RunAsWritten: the same holds for the source's run. For example, `pss -z -w soon x` would
  exit with status 1 even when nothing matches, but the model gives status 0.
- The concurrency of `Promise.all` (app.js:79, 113) is left out. Requests within a phase are
  issued in list order, as the `map` callbacks run; when they settle is not modelled.
- Error messages are the texts JavaScript prints for the thrown errors, written as constants.
- JavaScript strings are sequences of UTF-16 code units. Here a `char` is one code unit that is
  not a surrogate. Strings containing surrogates (characters outside the Basic Multilingual Plane,
  or lone surrogates) are not represented, so the length equations hold for surrogate-free text
  only.
- app.js has no port tokens (`:<port>`), `--pid` lists, `--parent-pid`, sudo re-run or descendant
  exclusion, so none of them is modelled. The only self-exclusion is the single-pid test at
  app.js:57.

=== FILE: cli_options.dfy ===
/** The option record the CLI works on after `commander` has parsed the command line (app.js:36),
    and the sanity-check stage that normalises it (app.js:40-44) and builds the glob list
    (app.js:49). */
module CliOptions {
  import opened Wrappers

  /** `{args: args.args, ...args.opts()}`. Flags `commander` leaves undefined are `false` here;
      `caseFlag`, `skipSelf` and `surround` default to `true` (their `--no-…` forms clear them)
      and `wait` defaults to `"3s"`. */
  datatype Options = Options(
    all: bool,
    interactive: bool,
    list: bool,
    force: bool,
    kill: bool,
    name: bool,
    verbose: bool,
    wait: string,
    zap: bool,
    caseFlag: bool,
    skipSelf: bool,
    surround: bool,
    args: seq<string>)

  /** The options in force when only the positional globs are given. */
  function Defaults(args: seq<string>): (o: Options) {
    Options(false, false, false, false, false, false, false, "3s", false, true, true, true, args)
  }

  /** Message of the configuration error thrown at app.js:42. */
  const ForceZapMessage: string := "Using --force and --zap together makes no sense"

  /** Some action is requested. */
  predicate HasAction(o: Options) {
    o.list || o.kill || o.force || o.zap
  }

  /** Everything other than the four action flags, the globs and `surround` is the same. */
  predicate SameSettings(a: Options, b: Options) {
    a.all == b.all && a.interactive == b.interactive && a.name == b.name
    && a.verbose == b.verbose && a.wait == b.wait && a.caseFlag == b.caseFlag
    && a.skipSelf == b.skipSelf
  }

  /** `args.list` after app.js:41: set when none of kill, force, zap and list is. */
  function DefaultList(o: Options): (list: bool) {
    if !o.kill && !o.force && !o.zap && !o.list then true else o.list
  }

  /** The record after the two rewrites of app.js:41 and app.js:43: listing becomes the action
      when none is requested, and an empty glob list becomes the catch-all glob without
      surrounding wildcards. */
  function Defaulted(o: Options): (n: Options)
    ensures n.kill == o.kill && n.force == o.force && n.zap == o.zap
    ensures n.list == (o.list || !(o.kill || o.force || o.zap))
    ensures HasAction(n) && SameSettings(o, n)
    ensures |o.args| == 0 ==> n.args == ["*"] && !n.surround
    ensures |o.args| > 0 ==> n.args == o.args && n.surround == o.surround
  {
    if |o.args| == 0 then
      Options(o.all, o.interactive, DefaultList(o), o.force, o.kill, o.name, o.verbose, o.wait,
              o.zap, o.caseFlag, o.skipSelf, false, ["*"])
    else
      Options(o.all, o.interactive, DefaultList(o), o.force, o.kill, o.name, o.verbose, o.wait,
              o.zap, o.caseFlag, o.skipSelf, o.surround, o.args)
  }

  /** The sanity checks of app.js:41-43: force together with zap is a configuration error;
      otherwise the defaulted record. */
  function Normalise(o: Options): (r: Result<Options, string>)
    ensures r.Failure? <==> o.force && o.zap
    ensures r.Failure? ==> r.error == ForceZapMessage
    ensures r.Success? ==> HasAction(r.value) && SameSettings(o, r.value)
  {
    if o.force && o.zap then Failure(ForceZapMessage) else Success(Defaulted(o))
  }

  /** Normalising an already normalised record changes nothing. */
  lemma NormaliseIdempotent(o: Options)
    requires Normalise(o).Success?
    ensures Normalise(Normalise(o).value) == Normalise(o)
  {
  }

  /** A glob wrapped in wildcards on both sides, as the template literal `` `*${a}*` `` does. */
  function Surround(a: string): (r: string)
    ensures |r| == |a| + 2 && r[0] == '*' && r[|r| - 1] == '*' && r[1..|r| - 1] == a
  {
    "*" + a + "*"
  }

  /** `args.args.map(a => args.surround ? `*${a}*` : a)`. */
  function Patterns(args: seq<string>, surround: bool): (r: seq<string>)
    ensures |r| == |args|
    decreases |args|
  {
    if |args| == 0 then []
    else [if surround then Surround(args[0]) else args[0]] + Patterns(args[1..], surround)
  }

  /** Inverse of `Surround` on surrounded globs: strips one character from each end. */
  function Unsurround(p: string): (a: string)
    requires |p| >= 2
    ensures p[0] == '*' && p[|p| - 1] == '*' ==> Surround(a) == p
  {
    p[1..|p| - 1]
  }

  /** Entry `k` of the glob list comes from argument `k`. */
  lemma {:induction false} PatternAt(args: seq<string>, surround: bool, k: nat)
    requires k < |args|
    ensures Patterns(args, surround)[k] == if surround then Surround(args[k]) else args[k]
    decreases k
  {
    if k > 0 {
      PatternAt(args[1..], surround, k - 1);
    }
  }

  /** The glob list keeps the length and order of the arguments: with `surround` each entry is
      the argument between two wildcards and stripping them gives the argument back; without it
      each entry is the argument itself. */
  lemma {:induction false} PatternsSpec(args: seq<string>, surround: bool)
    ensures var r := Patterns(args, surround);
            forall k | 0 <= k < |args| ::
              if surround then
                |r[k]| >= 2 && r[k][0] == '*' && r[k][|r[k]| - 1] == '*' && Unsurround(r[k]) == args[k]
              else r[k] == args[k]
  {
    var r := Patterns(args, surround);
    forall k | 0 <= k < |args|
      ensures if surround then
                |r[k]| >= 2 && r[k][0] == '*' && r[k][|r[k]| - 1] == '*' && Unsurround(r[k]) == args[k]
              else r[k] == args[k]
    {
      PatternAt(args, surround, k);
    }
  }

  /** With no positional globs the matcher receives exactly the catch-all glob `*`. */
  lemma NoGlobsMatchEverything(o: Options)
    requires |o.args| == 0 && !(o.force && o.zap)
    ensures var n := Normalise(o).value;
            Patterns(n.args, n.surround) == ["*"]
  {
  }

  /** `pss` with nothing but globs lists the matches and kills nothing. */
  lemma DefaultIsListOnly(args: seq<string>)
    ensures Normalise(Defaults(args)).Success?
    ensures var n := Normalise(Defaults(args)).value;
            n.list && !n.kill && !n.force && !n.zap
  {
  }
}

=== FILE: phases.dfy ===
/** The run of app.js:38-126 after option parsing: sanity checks, selection, optional picking,
    then the list / polite-kill / wait / recheck / force-kill phases, and the exit status.
    Every observable effect (console lines, `taskkill` calls, the wait) is an `Event`; the process
    table, the glob matcher, the picker, liveness and the highlighting colour are parameters.

    `RunAsWritten` is the promise chain as the source has it; `Run` is the promise chain with the three
    defects listed in the README corrected, and the properties of the tool are proved about it. */
module Phases {
  import opened Wrappers
  import opened Seqs
  import opened CliOptions
  import opened Selection
  import opened StringReplaceLast

  /** What the run does that can be observed from outside. */
  datatype Event =
    | Listed(pid: int, line: string)                      // the list line of a process
    | Announced(forceful: bool, pid: int, line: string)   // "Politely killing" / "Vilolently killing"
    | Signalled(pid: int, forceful: bool)                 // `taskkill(pid)` / `taskkill(pid, {force: true})`
    | Waited(wait: string)                                // "Waiting …" and the timer
    | Warned(message: string)                             // `console.warn(e.toString())` in the catch

  /** The events in order and the status passed to `process.exit`. */
  datatype Outcome = Outcome(events: seq<Event>, exit: int)

  /** The collaborators of one run: the table `psList` returns, this process's pid, the glob
      matcher, the operator's answer to the interactive picker for the candidates it shows,
      whether a pid is still alive at the recheck, and the highlighting applied to the command
      name. */
  datatype Env = Env(
    procs: seq<Process>,
    selfPid: int,
    isMatch: Matcher,
    chosen: seq<Process> -> seq<Process>,
    alive: int -> bool,
    highlight: string -> string)

  /** `stringReplaceLast(proc.cmd, proc.name, v => chalk.bold.white(v))`: the command line with
      the last occurrence of the command name highlighted. */
  function Line(p: Process, highlight: string -> string): (r: string)
    ensures LastHit(p.cmd, p.name).None? ==> r == p.cmd
    ensures LastHit(p.cmd, p.name).Some? ==> |r| == |p.cmd| - |p.name| + |highlight(p.name)|
  {
    ReplaceLast(p.cmd, p.name, Computed(highlight))
  }

  /** The processes handed to the phases (app.js:47-78): the selection, or in interactive mode
      the picker's answer for the selection. The answer may come in any order and may repeat a
      process; the picker offers only the shown candidates, so anything else it returns is
      dropped. */
  function Candidates(o: Options, env: Env): (c: seq<Process>)
    ensures forall p | p in c :: p in env.procs && (o.skipSelf ==> p.pid != env.selfPid)
    ensures forall p | p in c :: p in Select(o, env.selfPid, env.isMatch, env.procs)
    ensures o.interactive ==> forall p | p in c :: p in env.chosen(Select(o, env.selfPid, env.isMatch, env.procs))
    ensures !o.interactive ==> c == Select(o, env.selfPid, env.isMatch, env.procs)
    ensures !o.interactive ==> IsSubsequence(c, env.procs)
    ensures o.interactive ==> var sel := Select(o, env.selfPid, env.isMatch, env.procs);
              && IsSubsequence(c, env.chosen(sel))
              && forall p | p in env.chosen(sel) && p in sel :: p in c
  {
    var sel := Select(o, env.selfPid, env.isMatch, env.procs);
    FilterIsSubsequence(env.chosen(sel), (p: Process) => p in sel);
    FilterComplete(env.chosen(sel), (p: Process) => p in sel);
    if o.interactive then Filter(env.chosen(sel), (p: Process) => p in sel)
    else sel
  }

  /** Kill lines are printed unless the list was already shown, or when verbose (app.js:88, 114). */
  function Announce(o: Options, forceful: bool, p: Process, highlight: string -> string): (r: seq<Event>) {
    if !o.list || o.verbose then [Announced(forceful, p.pid, Line(p, highlight))] else []
  }

  /** The polite request for one process, issued only under kill or zap (app.js:87-95). */
  function PoliteKill(o: Options, p: Process, highlight: string -> string): (r: seq<Event>)
    ensures forall e | e in r :: (e.Announced? || e.Signalled?) && !e.forceful && e.pid == p.pid
  {
    if o.kill || o.zap then Announce(o, false, p, highlight) + [Signalled(p.pid, false)] else []
  }

  /** One list line per process. */
  function ListAll(procs: seq<Process>, highlight: string -> string): (r: seq<Event>)
    ensures |r| == |procs|
    ensures forall i | 0 <= i < |r| :: r[i] == Listed(procs[i].pid, Line(procs[i], highlight))
    decreases |procs|
  {
    if |procs| == 0 then []
    else [Listed(procs[0].pid, Line(procs[0], highlight))] + ListAll(procs[1..], highlight)
  }

  /** The first phase as written (app.js:79-96): the callback for EACH process prints the WHOLE
      list (`procs.forEach`) before the polite request for that process. `all` is the list the
      callback closes over, `rest` the processes still to visit. */
  function PoliteStageAsWritten(
    o: Options, all: seq<Process>, rest: seq<Process>, highlight: string -> string): (r: seq<Event>)
    ensures forall e | e in r :: e.Listed? || ((e.Announced? || e.Signalled?) && !e.forceful)
    ensures !o.list ==> forall e | e in r :: !e.Listed?
    decreases |rest|
  {
    if |rest| == 0 then []
    else
      (if o.list then ListAll(all, highlight) else [])
      + PoliteKill(o, rest[0], highlight)
      + PoliteStageAsWritten(o, all, rest[1..], highlight)
  }

  /** The first phase as intended: the callback for each process prints that process's line. */
  function PoliteStage(o: Options, procs: seq<Process>, highlight: string -> string): (r: seq<Event>)
    ensures forall e | e in r :: e.Listed? || ((e.Announced? || e.Signalled?) && !e.forceful)
    decreases |procs|
  {
    if |procs| == 0 then []
    else
      (if o.list then [Listed(procs[0].pid, Line(procs[0], highlight))] else [])
      + PoliteKill(o, procs[0], highlight)
      + PoliteStage(o, procs[1..], highlight)
  }

  /** The grace period (app.js:97-103): only under zap with a non-empty (truthy) wait string.
      Parsing the duration and the timer itself are outside the model. */
  function WaitStage(o: Options): (r: seq<Event>)
    ensures forall e | e in r :: e == Waited(o.wait)
    ensures r != [] <==> o.zap && o.wait != ""
  {
    if o.zap && o.wait != "" then [Waited(o.wait)] else []
  }

  /** The recheck (app.js:104-112) as intended: under zap only the processes still alive go on;
      otherwise the candidates pass through unchanged. */
  function Recheck(o: Options, procs: seq<Process>, alive: int -> bool): (r: seq<Process>)
    ensures IsSubsequence(r, procs)
    ensures o.zap ==> forall p | p in procs :: p in r <==> alive(p.pid)
    ensures !o.zap ==> r == procs
  {
    FilterIsSubsequence(procs, StillAlive(alive));
    FilterComplete(procs, StillAlive(alive));
    SubsequenceReflexive(procs);
    if o.zap then Filter(procs, StillAlive(alive)) else procs
  }

  /** `proc.remains` as intended: the process's pid is still alive. */
  function StillAlive(alive: int -> bool): (f: Process -> bool) {
    (p: Process) => alive(p.pid)
  }

  /** The forceful phase (app.js:113-121), run only under zap or force. */
  function ForceStage(o: Options, procs: seq<Process>, highlight: string -> string): (r: seq<Event>)
    ensures forall e | e in r :: (e.Announced? || e.Signalled?) && e.forceful
    ensures !(o.zap || o.force) ==> r == []
    decreases |procs|
  {
    if !(o.zap || o.force) || |procs| == 0 then []
    else
      Announce(o, true, procs[0], highlight) + [Signalled(procs[0].pid, true)]
      + ForceStage(o, procs[1..], highlight)
  }

  /** `e.toString()` of the configuration error. */
  function ConfigError(): (e: Event) {
    Warned("Error: " + ForceZapMessage)
  }

  /** `processExists` is called at app.js:108 but never imported (app.js:10 imports
      `filterExistingProcesses`), so the first call throws. */
  const RecheckError: string := "ReferenceError: processExists is not defined"

  /** The stage at app.js:104-112 yields `undefined` when not zapping, and app.js:113 calls
      `.map` on it. */
  const ForceError: string := "TypeError: Cannot read properties of undefined (reading 'map')"

  /** The run as the source has it. */
  function RunAsWritten(o: Options, env: Env): (r: Outcome)
    ensures r.exit == 0 || r.exit == 1
    ensures r.exit == 1 <==> o.force || (o.zap && |Candidates(Normalise(o).value, env)| > 0)
  {
    match Normalise(o)
    case Failure(_) => Outcome([ConfigError()], 1)
    case Success(n) => AfterChecksAsWritten(n, env)
  }

  /** The source's run from app.js:46 on, given the normalised options. */
  function AfterChecksAsWritten(n: Options, env: Env): (r: Outcome)
    ensures r.exit == 1 <==> (n.zap && |Candidates(n, env)| > 0) || (!n.zap && n.force)
    ensures r.exit == 0 || r.exit == 1
  {
    var c := Candidates(n, env);
    var before := PoliteStageAsWritten(n, c, c, env.highlight) + WaitStage(n);
    if n.zap then
      if |c| > 0 then Outcome(before + [Warned(RecheckError)], 1)
      else Outcome(before, 0)
    else if n.force then Outcome(before + [Warned(ForceError)], 1)
    else Outcome(before, 0)
  }

  /** The run with the three defects corrected. */
  function Run(o: Options, env: Env): (r: Outcome)
    ensures r.exit == (if o.force && o.zap then 1 else 0)
    ensures o.force && o.zap ==> r.events == [ConfigError()]
    ensures forall e | e in r.events :: e.Warned? ==> e == ConfigError()
  {
    match Normalise(o)
    case Failure(_) => Outcome([ConfigError()], 1)
    case Success(n) => Outcome(AfterChecks(n, env), 0)
  }

  /** The corrected run from app.js:46 on, given the normalised options: the phases in order. */
  function AfterChecks(n: Options, env: Env): (r: seq<Event>)
    ensures forall e | e in r :: !e.Warned?
  {
    var c := Candidates(n, env);
    PoliteStage(n, c, env.highlight) + WaitStage(n) + ForceStage(n, Recheck(n, c, env.alive), env.highlight)
  }

  // ---------------------------------------------------------------------------------------------
  // Observing a run

  /** Which events to project: list lines, kill announcements or kill requests of one kind. */
  datatype Kind = ListKind | NoticeKind(forceful: bool) | SignalKind(forceful: bool)

  /** The pid an event contributes to the projection on `k`, if any. */
  function PidOf(e: Event, k: Kind): (r: seq<int>)
    ensures |r| <= 1
  {
    match e
    case Listed(pid, _) => if k == ListKind then [pid] else []
    case Announced(f, pid, _) => if k == NoticeKind(f) then [pid] else []
    case Signalled(pid, f) => if k == SignalKind(f) then [pid] else []
    case Waited(_) => []
    case Warned(_) => []
  }

  /** The pids of the events of kind `k`, in order. */
  function Collect(events: seq<Event>, k: Kind): (r: seq<int>)
    ensures |r| <= |events|
    decreases |events|
  {
    if |events| == 0 then [] else PidOf(events[0], k) + Collect(events[1..], k)
  }

  /** The pids of a list of processes, in order. */
  function Pids(procs: seq<Process>): (r: seq<int>)
    ensures |r| == |procs|
    decreases |procs|
  {
    if |procs| == 0 then [] else [procs[0].pid] + Pids(procs[1..])
  }

  lemma {:induction false} CollectAppend(a: seq<Event>, b: seq<Event>, k: Kind)
    ensures Collect(a + b, k) == Collect(a, k) + Collect(b, k)
    decreases |a|
  {
    if |a| == 0 {
      assert a + b == b;
    } else {
      assert (a + b)[0] == a[0];
      assert (a + b)[1..] == a[1..] + b;
      CollectAppend(a[1..], b, k);
    }
  }

  lemma CollectOne(e: Event, k: Kind)
    ensures Collect([e], k) == PidOf(e, k)
  {
    assert [e][1..] == [];
  }

  /** The pids of a subsequence form a subsequence of the pids. */
  lemma {:induction false} PidsSubsequence(a: seq<Process>, b: seq<Process>)
    requires IsSubsequence(a, b)
    ensures IsSubsequence(Pids(a), Pids(b))
    decreases |b|
  {
    if |a| > 0 {
      if a[0] == b[0] && IsSubsequence(a[1..], b[1..]) {
        PidsSubsequence(a[1..], b[1..]);
      } else {
        PidsSubsequence(a, b[1..]);
      }
    }
  }

  lemma {:induction false} PidsMembership(procs: seq<Process>, pid: int)
    ensures pid in Pids(procs) <==> exists p | p in procs :: p.pid == pid
    decreases |procs|
  {
    if |procs| > 0 {
      PidsMembership(procs[1..], pid);
      if exists p | p in procs[1..] :: p.pid == pid {
        var p :| p in procs[1..] && p.pid == pid;
        assert p in procs;
      }
      if exists p | p in procs :: p.pid == pid {
        var p :| p in procs && p.pid == pid;
        if p != procs[0] {
          assert p in procs[1..];
        }
      }
    }
  }

  // ---------------------------------------------------------------------------------------------
  // What each phase does

  /** The polite request for one process: announced unless the list was shown and not verbose,
      and issued, both only under kill or zap. */
  lemma PoliteKillCollect(o: Options, p: Process, highlight: string -> string, k: Kind)
    ensures Collect(PoliteKill(o, p, highlight), k)
            == if k == NoticeKind(false) then (if (o.kill || o.zap) && (!o.list || o.verbose) then [p.pid] else [])
               else if k == SignalKind(false) then (if o.kill || o.zap then [p.pid] else [])
               else []
  {
    if o.kill || o.zap {
      var notice := Announce(o, false, p, highlight);
      CollectAppend(notice, [Signalled(p.pid, false)], k);
      CollectOne(Signalled(p.pid, false), k);
      if !o.list || o.verbose {
        CollectOne(Announced(false, p.pid, Line(p, highlight)), k);
      }
    }
  }

  /** What the intended first phase issues for one process. */
  lemma PoliteStepCollect(o: Options, p: Process, highlight: string -> string, k: Kind)
    ensures var block := (if o.list then [Listed(p.pid, Line(p, highlight))] else [])
                         + PoliteKill(o, p, highlight);
            Collect(block, k)
            == if k == ListKind then (if o.list then [p.pid] else [])
               else if k == NoticeKind(false) then
                 (if (o.kill || o.zap) && (!o.list || o.verbose) then [p.pid] else [])
               else if k == SignalKind(false) then (if o.kill || o.zap then [p.pid] else [])
               else []
  {
    var listing: seq<Event> := if o.list then [Listed(p.pid, Line(p, highlight))] else [];
    CollectAppend(listing, PoliteKill(o, p, highlight), k);
    PoliteKillCollect(o, p, highlight, k);
    if o.list {
      CollectOne(Listed(p.pid, Line(p, highlight)), k);
    }
  }

  /** The intended first phase lists every candidate once (under list), requests a polite kill
      of every candidate (under kill or zap), announces each such request unless the list was
      shown and not verbose, and issues nothing forceful. */
  lemma {:induction false} PoliteStageCollect(o: Options, procs: seq<Process>, highlight: string -> string, k: Kind)
    ensures Collect(PoliteStage(o, procs, highlight), k)
            == if k == ListKind then (if o.list then Pids(procs) else [])
               else if k == NoticeKind(false) then
                 (if (o.kill || o.zap) && (!o.list || o.verbose) then Pids(procs) else [])
               else if k == SignalKind(false) then (if o.kill || o.zap then Pids(procs) else [])
               else []
    decreases |procs|
  {
    if |procs| > 0 {
      var p := procs[0];
      var block := (if o.list then [Listed(p.pid, Line(p, highlight))] else []) + PoliteKill(o, p, highlight);
      assert PoliteStage(o, procs, highlight) == block + PoliteStage(o, procs[1..], highlight);
      CollectAppend(block, PoliteStage(o, procs[1..], highlight), k);
      PoliteStepCollect(o, p, highlight, k);
      PoliteStageCollect(o, procs[1..], highlight, k);
    }
  }

  /** The forceful phase requests a forceful kill of exactly the given processes when zap or
      force is set, announces each unless the list was shown and not verbose, and does nothing
      else. */
  lemma {:induction false} ForceStageCollect(
    o: Options, procs: seq<Process>, highlight: string -> string, k: Kind)
    ensures Collect(ForceStage(o, procs, highlight), k)
            == if !(o.zap || o.force) then []
               else if k == SignalKind(true) then Pids(procs)
               else if k == NoticeKind(true) then (if !o.list || o.verbose then Pids(procs) else [])
               else []
    decreases |procs|
  {
    if (o.zap || o.force) && |procs| > 0 {
      var step := Announce(o, true, procs[0], highlight) + [Signalled(procs[0].pid, true)];
      var rest := ForceStage(o, procs[1..], highlight);
      assert ForceStage(o, procs, highlight) == step + rest;
      CollectAppend(step, rest, k);
      ForceStepCollect(o, procs[0], highlight, k);
      ForceStageCollect(o, procs[1..], highlight, k);
    }
  }

  /** What the forceful phase issues for one process. */
  lemma ForceStepCollect(o: Options, p: Process, highlight: string -> string, k: Kind)
    ensures Collect(Announce(o, true, p, highlight) + [Signalled(p.pid, true)], k)
            == if k == SignalKind(true) then [p.pid]
               else if k == NoticeKind(true) then (if !o.list || o.verbose then [p.pid] else [])
               else []
  {
    CollectAppend(Announce(o, true, p, highlight), [Signalled(p.pid, true)], k);
    CollectOne(Signalled(p.pid, true), k);
    if !o.list || o.verbose {
      CollectOne(Announced(true, p.pid, Line(p, highlight)), k);
    }
  }

  lemma WaitStageCollect(o: Options, k: Kind)
    ensures Collect(WaitStage(o), k) == []
  {
    if o.zap && o.wait != "" {
      CollectOne(Waited(o.wait), k);
    }
  }
}

=== FILE: regexp_escape.dfy ===
/** `regexpEscape` (lib/regexpEscape.js): a backslash goes in front of every regular-expression
    metacharacter so that the string can be handed to `new RegExp` as a literal. */
module RegexpEscape {
  import opened Wrappers

  /** The fourteen characters of the source's character class `[|\\{}()[\]^$+*?.]`. */
  predicate IsSpecial(c: char) {
    c == '|' || c == '\\' || c == '{' || c == '}' || c == '(' || c == ')' || c == '['
    || c == ']' || c == '^' || c == '$' || c == '+' || c == '*' || c == '?' || c == '.'
  }

  /** Number of metacharacters in `s`. */
  function CountSpecial(s: string): (n: nat)
    decreases |s|
  {
    if |s| == 0 then 0 else (if IsSpecial(s[0]) then 1 else 0) + CountSpecial(s[1..])
  }

  /** The replacement `'\\$&'` applied to one character: the match itself, preceded by a backslash. */
  function EscapeChar(c: char): (r: string) {
    if IsSpecial(c) then ['\\', c] else [c]
  }

  /** `str.replace(/[|\\{}()[\]^$+*?.]/g, '\\$&')`: every character mapped through `EscapeChar`,
      left to right. */
  function Escape(s: string): (r: string)
    ensures |r| == |s| + CountSpecial(s)
    decreases |s|
  {
    if |s| == 0 then [] else EscapeChar(s[0]) + Escape(s[1..])
  }

  /** Reads an escaped string back as the literal it denotes: a backslash followed by a
      metacharacter stands for that character, any other non-metacharacter stands for itself,
      and anything else (a bare metacharacter, a dangling or foreign escape) is not a literal. */
  function Unescape(r: string): (s: Option<string>)
    decreases |r|
  {
    if |r| == 0 then Some([])
    else if r[0] == '\\' then
      if |r| >= 2 && IsSpecial(r[1]) then
        match Unescape(r[2..])
        case Some(t) => Some([r[1]] + t)
        case None => None
      else None
    else if IsSpecial(r[0]) then None
    else
      match Unescape(r[1..])
      case Some(t) => Some([r[0]] + t)
      case None => None
  }

  /** Escaping is a homomorphism: it works character by character. */
  lemma {:induction false} EscapeAppend(a: string, b: string)
    ensures Escape(a + b) == Escape(a) + Escape(b)
    decreases |a|
  {
    if |a| == 0 {
      assert a + b == b;
    } else {
      assert (a + b)[0] == a[0];
      assert (a + b)[1..] == a[1..] + b;
      EscapeAppend(a[1..], b);
    }
  }

  /** Character `i` of the input lands at index `i` plus the number of metacharacters before it:
      a metacharacter there is preceded by an inserted backslash, any other character is copied. */
  lemma EscapeAt(s: string, i: nat)
    requires i < |s|
    ensures var j := i + CountSpecial(s[..i]);
            && j + (if IsSpecial(s[i]) then 2 else 1) <= |Escape(s)|
            && (IsSpecial(s[i]) ==> Escape(s)[j] == '\\' && Escape(s)[j + 1] == s[i])
            && (!IsSpecial(s[i]) ==> Escape(s)[j] == s[i])
  {
    var j := i + CountSpecial(s[..i]);
    assert s == s[..i] + s[i..];
    EscapeAppend(s[..i], s[i..]);
    assert |Escape(s[..i])| == j;
    assert Escape(s[i..]) == EscapeChar(s[i]) + Escape(s[i + 1..]) by {
      assert s[i..][0] == s[i];
      assert s[i..][1..] == s[i + 1..];
    }
  }

  /** A string without metacharacters (the empty string among them) is returned unchanged. */
  lemma {:induction false} EscapePlain(s: string)
    requires forall i | 0 <= i < |s| :: !IsSpecial(s[i])
    ensures Escape(s) == s
    decreases |s|
  {
    if |s| > 0 {
      assert !IsSpecial(s[0]);
      EscapePlain(s[1..]);
      assert [s[0]] + s[1..] == s;
    }
  }

  /** Removing the inserted backslashes recovers the input exactly. */
  lemma {:induction false} UnescapeEscape(s: string)
    ensures Unescape(Escape(s)) == Some(s)
    decreases |s|
  {
    if |s| > 0 {
      UnescapeEscape(s[1..]);
      var e := Escape(s);
      assert e == EscapeChar(s[0]) + Escape(s[1..]);
      if IsSpecial(s[0]) {
        assert e[0] == '\\' && e[1] == s[0];
        assert e[2..] == Escape(s[1..]);
      } else {
        assert e[0] == s[0];
        assert e[1..] == Escape(s[1..]);
      }
      assert [s[0]] + s[1..] == s;
    }
  }

  /** Only well-escaped strings are read as literals, and they are exactly the escapes of what
      they denote: together with `UnescapeEscape`, `Escape` and `Unescape` are inverse. */
  lemma {:induction false} EscapeUnescape(r: string, s: string)
    requires Unescape(r) == Some(s)
    ensures Escape(s) == r
    decreases |r|
  {
    if |r| > 0 {
      if r[0] == '\\' {
        var t := Unescape(r[2..]).value;
        EscapeUnescape(r[2..], t);
        assert s == [r[1]] + t;
        assert s[1..] == t;
        assert r == ['\\', r[1]] + r[2..];
      } else {
        var t := Unescape(r[1..]).value;
        EscapeUnescape(r[1..], t);
        assert s == [r[0]] + t;
        assert s[1..] == t;
        assert r == [r[0]] + r[1..];
      }
    }
  }

  /** Distinct strings have distinct escapes. */
  lemma EscapeInjective(a: string, b: string)
    requires Escape(a) == Escape(b)
    ensures a == b
  {
    UnescapeEscape(a);
    UnescapeEscape(b);
  }

  /** `-` and `/` are not in the class and pass through, while `.` is escaped. */
  lemma EscapeExample()
    ensures Escape("a-b/c.d") == "a-b/c\\.d"
  {
    assert Escape("d") == "d";
    assert Escape(".d") == "\\.d";
    assert Escape("c.d") == "c\\.d";
    assert Escape("/c.d") == "/c\\.d";
    assert Escape("b/c.d") == "b/c\\.d";
    assert Escape("-b/c.d") == "-b/c\\.d";
  }
}

=== FILE: run_properties.dfy ===
/** Properties of a whole run: what is listed and killed, the zap escalation, self-exclusion,
    the configuration error, and the three places where the source as written departs from them. */
module RunProperties {
  import opened Wrappers
  import opened Seqs
  import opened CliOptions
  import opened Selection
  import opened Phases

  /** The events of one run split into its phases, as the lemmas below use them. */
  lemma RunCollect(o: Options, env: Env, k: Kind)
    requires !(o.force && o.zap)
    ensures var n := Normalise(o).value;
            var c := Candidates(n, env);
            var r := Run(o, env);
            && r.exit == 0
            && Collect(r.events, k)
               == Collect(PoliteStage(n, c, env.highlight), k)
                  + Collect(ForceStage(n, Recheck(n, c, env.alive), env.highlight), k)
  {
    var n := Normalise(o).value;
    assert Run(o, env) == Outcome(AfterChecks(n, env), 0);
    var c := Candidates(n, env);
    var a := PoliteStage(n, c, env.highlight);
    var b := ForceStage(n, Recheck(n, c, env.alive), env.highlight);
    assert AfterChecks(n, env) == a + WaitStage(n) + b;
    CollectAppend(a + WaitStage(n), b, k);
    CollectAppend(a, WaitStage(n), k);
    WaitStageCollect(n, k);
    assert Collect(a + WaitStage(n), k) == Collect(a, k);
  }

  /** Force together with zap stops the run with status 1 before anything is listed or
      signalled, whatever the process table holds; the source behaves the same way. */
  lemma ConfigErrorFirst(o: Options, env: Env, env': Env, k: Kind)
    requires o.force && o.zap
    ensures Run(o, env).exit == 1 && Collect(Run(o, env).events, k) == []
    ensures Run(o, env) == Run(o, env') == RunAsWritten(o, env')
  {
    CollectOne(ConfigError(), k);
  }

  /** Without a configuration error the run ends with status 0, lists every candidate once when
      listing, and politely signals exactly the candidates, in order, when kill or zap is set. */
  lemma RunListsAndPolitelyKills(o: Options, env: Env)
    requires !(o.force && o.zap)
    ensures var n := Normalise(o).value;
            var c := Candidates(n, env);
            var r := Run(o, env);
            && r.exit == 0
            && Collect(r.events, ListKind) == (if n.list then Pids(c) else [])
            && Collect(r.events, SignalKind(false)) == (if o.kill || o.zap then Pids(c) else [])
  {
    var n := Normalise(o).value;
    var c := Candidates(n, env);
    var s := Recheck(n, c, env.alive);
    RunCollect(o, env, ListKind);
    RunCollect(o, env, SignalKind(false));
    PoliteStageCollect(n, c, env.highlight, ListKind);
    PoliteStageCollect(n, c, env.highlight, SignalKind(false));
    ForceStageCollect(n, s, env.highlight, ListKind);
    ForceStageCollect(n, s, env.highlight, SignalKind(false));
  }

  /** The forceful phase runs only under zap or force: under force it signals every candidate,
      under zap only the candidates still alive at the recheck. */
  lemma RunForcefullyKills(o: Options, env: Env)
    requires !(o.force && o.zap)
    ensures var n := Normalise(o).value;
            var c := Candidates(n, env);
            Collect(Run(o, env).events, SignalKind(true))
            == if o.zap then Pids(Filter(c, StillAlive(env.alive)))
               else if o.force then Pids(c)
               else []
  {
    var n := Normalise(o).value;
    var c := Candidates(n, env);
    var s := Recheck(n, c, env.alive);
    RunCollect(o, env, SignalKind(true));
    PoliteStageCollect(n, c, env.highlight, SignalKind(true));
    ForceStageCollect(n, s, env.highlight, SignalKind(true));
  }

  /** A kill is announced exactly when it is issued, unless the list was shown and the run is
      not verbose, in which case no kill is announced. */
  lemma RunAnnouncesKills(o: Options, env: Env, forceful: bool)
    requires !(o.force && o.zap)
    ensures var n := Normalise(o).value;
            var r := Run(o, env);
            Collect(r.events, NoticeKind(forceful))
            == if !n.list || n.verbose then Collect(r.events, SignalKind(forceful)) else []
  {
    var n := Normalise(o).value;
    var c := Candidates(n, env);
    var s := Recheck(n, c, env.alive);
    RunCollect(o, env, NoticeKind(forceful));
    RunCollect(o, env, SignalKind(forceful));
    PoliteStageCollect(n, c, env.highlight, NoticeKind(forceful));
    PoliteStageCollect(n, c, env.highlight, SignalKind(forceful));
    ForceStageCollect(n, s, env.highlight, NoticeKind(forceful));
    ForceStageCollect(n, s, env.highlight, SignalKind(forceful));
  }

  /** Zap escalates only for survivors: the forcefully signalled pids are, in order, a
      subsequence of the politely signalled ones, and each was alive at the recheck. */
  lemma ZapMonotone(o: Options, env: Env)
    requires o.zap && !o.force
    ensures var r := Run(o, env);
            && IsSubsequence(Collect(r.events, SignalKind(true)), Collect(r.events, SignalKind(false)))
            && forall pid | pid in Collect(r.events, SignalKind(true)) :: env.alive(pid)
  {
    var n := Normalise(o).value;
    var c := Candidates(n, env);
    var survivors := Filter(c, StillAlive(env.alive));
    RunListsAndPolitelyKills(o, env);
    RunForcefullyKills(o, env);
    FilterIsSubsequence(c, StillAlive(env.alive));
    PidsSubsequence(survivors, c);
    forall pid | pid in Pids(survivors)
      ensures env.alive(pid)
    {
      PidsMembership(survivors, pid);
      var p :| p in survivors && p.pid == pid;
      assert StillAlive(env.alive)(p);
    }
  }

  /** A zap whose candidates have all exited by the recheck issues no forceful kill. */
  lemma ZapAllExited(o: Options, env: Env)
    requires o.zap && !o.force
    requires forall p | p in env.procs :: !env.alive(p.pid)
    ensures Collect(Run(o, env).events, SignalKind(true)) == []
  {
    var n := Normalise(o).value;
    var c := Candidates(n, env);
    var survivors := Filter(c, StillAlive(env.alive));
    RunForcefullyKills(o, env);
  }

  /** With `skipSelf`, this process is never signalled, politely or forcefully. */
  lemma NeverSignalsSelf(o: Options, env: Env, forceful: bool)
    requires o.skipSelf
    ensures env.selfPid !in Collect(Run(o, env).events, SignalKind(forceful))
  {
    if o.force && o.zap {
      ConfigErrorFirst(o, env, env, SignalKind(forceful));
    } else {
      var n := Normalise(o).value;
      var c := Candidates(n, env);
      var survivors := Filter(c, StillAlive(env.alive));
      RunListsAndPolitelyKills(o, env);
      RunForcefullyKills(o, env);
      PidsMembership(c, env.selfPid);
      PidsMembership(survivors, env.selfPid);
    }
  }

  /** Without `skipSelf` the run does not depend on this process's pid at all. */
  lemma RunIgnoresSelfPid(o: Options, env: Env, pid: int)
    requires !o.skipSelf
    ensures Run(o, env) == Run(o, env.(selfPid := pid))
  {
    match Normalise(o)
    case Failure(_) =>
    case Success(n) =>
      SelectIgnoresSelfPid(n, env.selfPid, pid, env.isMatch, env.procs);
  }

  // ---------------------------------------------------------------------------------------------
  // The source as written

  lemma {:induction false} ListAllCollect(procs: seq<Process>, highlight: string -> string, k: Kind)
    ensures Collect(ListAll(procs, highlight), k) == if k == ListKind then Pids(procs) else []
    decreases |procs|
  {
    if |procs| > 0 {
      var head := Listed(procs[0].pid, Line(procs[0], highlight));
      CollectAppend([head], ListAll(procs[1..], highlight), k);
      CollectOne(head, k);
      ListAllCollect(procs[1..], highlight, k);
    }
  }

  /** As written, the first phase prints the whole list once per visited process. */
  lemma {:induction false} PoliteStageAsWrittenLines(
    o: Options, all: seq<Process>, rest: seq<Process>, highlight: string -> string)
    ensures |Collect(PoliteStageAsWritten(o, all, rest, highlight), ListKind)|
            == if o.list then |rest| * |all| else 0
    decreases |rest|
  {
    if |rest| > 0 {
      var listing := if o.list then ListAll(all, highlight) else [];
      var kill := PoliteKill(o, rest[0], highlight);
      var tail := PoliteStageAsWritten(o, all, rest[1..], highlight);
      assert PoliteStageAsWritten(o, all, rest, highlight) == listing + kill + tail;
      CollectAppend(listing + kill, tail, ListKind);
      CollectAppend(listing, kill, ListKind);
      ListAllCollect(all, highlight, ListKind);
      PoliteKillCollect(o, rest[0], highlight, ListKind);
      PoliteStageAsWrittenLines(o, all, rest[1..], highlight);
      assert Collect(kill, ListKind) == [];
      if o.list {
        MultiplyStep(|rest|, |all|);
      }
    }
  }

  lemma MultiplyStep(a: nat, b: nat)
    requires a > 0
    ensures a * b == b + (a - 1) * b
  {
  }

  /** As written, a listing run prints `|c| * |c|` list lines for `|c|` candidates. */
  lemma ListRepeatedAsWritten(o: Options, env: Env)
    requires !(o.force && o.zap)
    ensures var n := Normalise(o).value;
            var c := Candidates(n, env);
            |Collect(RunAsWritten(o, env).events, ListKind)| == if n.list then |c| * |c| else 0
  {
    var n := Normalise(o).value;
    var c := Candidates(n, env);
    var first := PoliteStageAsWritten(n, c, c, env.highlight);
    var before := first + WaitStage(n);
    CollectAppend(first, WaitStage(n), ListKind);
    WaitStageCollect(n, ListKind);
    PoliteStageAsWrittenLines(n, c, c, env.highlight);
    if n.zap && |c| > 0 {
      CollectAppend(before, [Warned(RecheckError)], ListKind);
      CollectOne(Warned(RecheckError), ListKind);
    } else if !n.zap && n.force {
      CollectAppend(before, [Warned(ForceError)], ListKind);
      CollectOne(Warned(ForceError), ListKind);
    }
  }

  /** A concrete table with two processes the matcher accepts: `pss node` prints four list
      lines as written and two as corrected. */
  lemma ListRepeatedExample(env: Env)
    requires env.procs == [Process(10, "node", "node a.js"), Process(11, "node", "node b.js")]
    requires env.selfPid == 1
    requires forall pats, nocase, field :: env.isMatch(pats, nocase, field)
    ensures |Collect(RunAsWritten(Defaults(["node"]), env).events, ListKind)| == 4
    ensures |Collect(Run(Defaults(["node"]), env).events, ListKind)| == 2
  {
    var o := Defaults(["node"]);
    DefaultIsListOnly(["node"]);
    var n := Normalise(o).value;
    assert n.list && !n.interactive && n.skipSelf;
    SelectAllWhenEverythingMatches(n, env.selfPid, env.isMatch, env.procs);
    var c := Candidates(n, env);
    assert c == env.procs;
    ListRepeatedAsWritten(o, env);
    RunListsAndPolitelyKills(o, env);
    assert |c| * |c| == 4;
  }

  /** As written, `--force` without zap never reaches a forceful kill: the recheck stage yields
      `undefined` and the force stage fails on it, ending the run with status 1. */
  lemma ForceFailsAsWritten(o: Options, env: Env)
    requires o.force && !o.zap
    ensures var r := RunAsWritten(o, env);
            r.exit == 1 && Collect(r.events, SignalKind(true)) == []
  {
    var n := Normalise(o).value;
    var c := Candidates(n, env);
    var first := PoliteStageAsWritten(n, c, c, env.highlight);
    PoliteFirstStageNotForceful(n, c, c, env.highlight);
    CollectAppend(first, WaitStage(n), SignalKind(true));
    WaitStageCollect(n, SignalKind(true));
    CollectAppend(first + WaitStage(n), [Warned(ForceError)], SignalKind(true));
    CollectOne(Warned(ForceError), SignalKind(true));
  }

  /** As written, a zap with at least one candidate signals every candidate politely and then
      fails at the recheck, ending with status 1 before any forceful kill. */
  lemma ZapFailsAsWritten(o: Options, env: Env)
    requires o.zap && !o.force
    requires |Candidates(Normalise(o).value, env)| > 0
    ensures var r := RunAsWritten(o, env);
            r.exit == 1 && Collect(r.events, SignalKind(true)) == []
  {
    var n := Normalise(o).value;
    var c := Candidates(n, env);
    var first := PoliteStageAsWritten(n, c, c, env.highlight);
    PoliteFirstStageNotForceful(n, c, c, env.highlight);
    CollectAppend(first, WaitStage(n), SignalKind(true));
    WaitStageCollect(n, SignalKind(true));
    CollectAppend(first + WaitStage(n), [Warned(RecheckError)], SignalKind(true));
    CollectOne(Warned(RecheckError), SignalKind(true));
  }

  /** The first phase as written issues no forceful kill. */
  lemma {:induction false} PoliteFirstStageNotForceful(
    o: Options, all: seq<Process>, rest: seq<Process>, highlight: string -> string)
    ensures Collect(PoliteStageAsWritten(o, all, rest, highlight), SignalKind(true)) == []
    decreases |rest|
  {
    if |rest| > 0 {
      var listing := if o.list then ListAll(all, highlight) else [];
      var kill := PoliteKill(o, rest[0], highlight);
      var tail := PoliteStageAsWritten(o, all, rest[1..], highlight);
      assert PoliteStageAsWritten(o, all, rest, highlight) == listing + kill + tail;
      CollectAppend(listing + kill, tail, SignalKind(true));
      CollectAppend(listing, kill, SignalKind(true));
      ListAllCollect(all, highlight, SignalKind(true));
      PoliteKillCollect(o, rest[0], highlight, SignalKind(true));
      PoliteFirstStageNotForceful(o, all, rest[1..], highlight);
    }
  }
}

=== FILE: selection.dfy ===
/** The selection stage of app.js:47-60: build the glob matcher, then keep the listed processes
    that are not this process (when self-skipping) and whose name or command line matches. */
module Selection {
  import opened Seqs
  import opened CliOptions

  /** One row of the process table as `ps-list` reports it; only the fields the core reads. */
  datatype Process = Process(pid: int, name: string, cmd: string)

  /** `micromatch.matcher(patterns, {contains: true, nocase})` applied to a field: the glob
      engine is outside the model, so it is a parameter. */
  type Matcher = (seq<string>, bool, string) -> bool

  /** The field matched: the command name with `--name`, the full command line otherwise. */
  function Field(p: Process, byName: bool): (f: string) {
    if byName then p.name else p.cmd
  }

  /** The filter predicate of app.js:57-58. */
  predicate Keep(o: Options, selfPid: int, isMatch: Matcher, p: Process) {
    (!o.skipSelf || p.pid != selfPid)
    && isMatch(Patterns(o.args, o.surround), o.caseFlag, Field(p, o.name))
  }

  /** `procs.filter(...)` over the listed processes. */
  function Select(o: Options, selfPid: int, isMatch: Matcher, procs: seq<Process>): (r: seq<Process>)
    ensures IsSubsequence(r, procs)
    ensures forall p | p in r ::
              && p in procs
              && (o.skipSelf ==> p.pid != selfPid)
              && isMatch(Patterns(o.args, o.surround), o.caseFlag, Field(p, o.name))
    ensures forall p | p in procs ::
              (!o.skipSelf || p.pid != selfPid)
              && isMatch(Patterns(o.args, o.surround), o.caseFlag, Field(p, o.name))
              ==> p in r
  {
    var keep := p => Keep(o, selfPid, isMatch, p);
    FilterIsSubsequence(procs, keep);
    FilterComplete(procs, keep);
    Filter(procs, keep)
  }

  /** Without `skipSelf` this process's pid plays no part in the selection. */
  lemma SelectIgnoresSelfPid(o: Options, a: int, b: int, isMatch: Matcher, procs: seq<Process>)
    requires !o.skipSelf
    ensures Select(o, a, isMatch, procs) == Select(o, b, isMatch, procs)
  {
    FilterExtensional(procs, p => Keep(o, a, isMatch, p), p => Keep(o, b, isMatch, p));
  }

  /** Selecting from two halves of the process table and concatenating equals selecting from
      the whole table: the decision for one process does not depend on the others. */
  lemma SelectAppend(o: Options, selfPid: int, isMatch: Matcher, a: seq<Process>, b: seq<Process>)
    ensures Select(o, selfPid, isMatch, a + b)
            == Select(o, selfPid, isMatch, a) + Select(o, selfPid, isMatch, b)
  {
    FilterAppend(a, b, p => Keep(o, selfPid, isMatch, p));
  }

  /** Running the selection again on its own output selects everything again. */
  lemma SelectIdempotent(o: Options, selfPid: int, isMatch: Matcher, procs: seq<Process>)
    ensures var r := Select(o, selfPid, isMatch, procs);
            Select(o, selfPid, isMatch, r) == r
  {
    FilterIdempotent(procs, p => Keep(o, selfPid, isMatch, p));
  }

  /** When the glob list accepts every field (as the catch-all glob `*` of a run without
      positional globs is meant to), the selection is the whole table, in order, less the rows
      with this process's own pid under `skipSelf`. */
  lemma SelectAllWhenEverythingMatches(o: Options, selfPid: int, isMatch: Matcher, procs: seq<Process>)
    requires forall p | p in procs :: isMatch(Patterns(o.args, o.surround), o.caseFlag, Field(p, o.name))
    ensures Select(o, selfPid, isMatch, procs)
            == Filter(procs, (p: Process) => !o.skipSelf || p.pid != selfPid)
    ensures !o.skipSelf ==> Select(o, selfPid, isMatch, procs) == procs
  {
    FilterExtensional(procs, p => Keep(o, selfPid, isMatch, p), (p: Process) => !o.skipSelf || p.pid != selfPid);
    if !o.skipSelf {
      FilterKeepAll(procs, (p: Process) => !o.skipSelf || p.pid != selfPid);
    }
  }
}

=== FILE: seqs.dfy ===
/** Order-preserving filtering of sequences, the shape of JavaScript's `Array.prototype.filter`. */
module Seqs {

  /** `a` can be obtained from `b` by deleting elements, keeping the order of the rest. */
  predicate IsSubsequence<T(==)>(a: seq<T>, b: seq<T>)
    decreases |b|
  {
    |a| == 0
    || (|b| > 0
        && ((a[0] == b[0] && IsSubsequence(a[1..], b[1..])) || IsSubsequence(a, b[1..])))
  }

  /** The elements of `s` satisfying `keep`, in their original order. */
  function Filter<T>(s: seq<T>, keep: T -> bool): (r: seq<T>)
    ensures |r| <= |s|
    ensures forall x | x in r :: x in s && keep(x)
    decreases |s|
  {
    if |s| == 0 then []
    else (if keep(s[0]) then [s[0]] else []) + Filter(s[1..], keep)
  }

  /** Nothing that `keep` accepts is dropped. */
  lemma {:induction false} FilterComplete<T>(s: seq<T>, keep: T -> bool)
    ensures forall x | x in s && keep(x) :: x in Filter(s, keep)
    decreases |s|
  {
    if |s| > 0 {
      FilterComplete(s[1..], keep);
      forall x | x in s && keep(x)
        ensures x in Filter(s, keep)
      {
        if x != s[0] {
          assert x in s[1..];
        }
      }
    }
  }

  /** The result is an order-preserving subsequence of the input. */
  lemma {:induction false} FilterIsSubsequence<T>(s: seq<T>, keep: T -> bool)
    ensures IsSubsequence(Filter(s, keep), s)
    decreases |s|
  {
    if |s| > 0 {
      FilterIsSubsequence(s[1..], keep);
      var tail := Filter(s[1..], keep);
      if keep(s[0]) {
        assert Filter(s, keep) == [s[0]] + tail;
        assert ([s[0]] + tail)[1..] == tail;
      } else {
        assert Filter(s, keep) == tail;
      }
    }
  }

  /** Filtering distributes over concatenation. */
  lemma {:induction false} FilterAppend<T>(a: seq<T>, b: seq<T>, keep: T -> bool)
    ensures Filter(a + b, keep) == Filter(a, keep) + Filter(b, keep)
    decreases |a|
  {
    if |a| == 0 {
      assert a + b == b;
    } else {
      assert (a + b)[0] == a[0];
      assert (a + b)[1..] == a[1..] + b;
      FilterAppend(a[1..], b, keep);
    }
  }

  /** Filtering twice with the same predicate changes nothing the second time. */
  lemma {:induction false} FilterIdempotent<T>(s: seq<T>, keep: T -> bool)
    ensures Filter(Filter(s, keep), keep) == Filter(s, keep)
    decreases |s|
  {
    if |s| > 0 {
      FilterIdempotent(s[1..], keep);
      var head := if keep(s[0]) then [s[0]] else [];
      FilterAppend(head, Filter(s[1..], keep), keep);
      if keep(s[0]) {
        assert Filter(head, keep) == [s[0]] + Filter(head[1..], keep);
      }
    }
  }

  /** Two predicates that agree on the elements of `s` select the same elements. */
  lemma {:induction false} FilterExtensional<T>(s: seq<T>, f: T -> bool, g: T -> bool)
    requires forall x | x in s :: f(x) == g(x)
    ensures Filter(s, f) == Filter(s, g)
    decreases |s|
  {
    if |s| > 0 {
      assert s[0] in s;
      forall x | x in s[1..]
        ensures f(x) == g(x)
      {
        assert x in s;
      }
      FilterExtensional(s[1..], f, g);
    }
  }

  /** A predicate that keeps everything leaves the sequence as it is. */
  lemma {:induction false} FilterKeepAll<T>(s: seq<T>, keep: T -> bool)
    requires forall x | x in s :: keep(x)
    ensures Filter(s, keep) == s
    decreases |s|
  {
    if |s| > 0 {
      assert s[0] in s;
      forall x | x in s[1..]
        ensures keep(x)
      {
        assert x in s;
      }
      FilterKeepAll(s[1..], keep);
      assert [s[0]] + s[1..] == s;
    }
  }

  /** Every sequence is a subsequence of itself. */
  lemma {:induction false} SubsequenceReflexive<T>(s: seq<T>)
    ensures IsSubsequence(s, s)
    decreases |s|
  {
    if |s| > 0 {
      SubsequenceReflexive(s[1..]);
    }
  }

  /** Being a subsequence is transitive. */
  lemma {:induction false} SubsequenceTransitive<T>(a: seq<T>, b: seq<T>, c: seq<T>)
    requires IsSubsequence(a, b) && IsSubsequence(b, c)
    ensures IsSubsequence(a, c)
    decreases |c|
  {
    if |a| > 0 {
      assert |b| > 0 && |c| > 0;
      if b[0] == c[0] && IsSubsequence(b[1..], c[1..]) {
        if a[0] == b[0] && IsSubsequence(a[1..], b[1..]) {
          SubsequenceTransitive(a[1..], b[1..], c[1..]);
        } else {
          SubsequenceTransitive(a, b[1..], c[1..]);
        }
      } else {
        SubsequenceTransitive(a, b, c[1..]);
      }
    }
  }
}

=== FILE: string_replace_last.dfy ===
/** `stringReplaceLast` (lib/stringReplaceLast.js) for a literal search string: the search string
    is escaped into a global regular expression, the expression is scanned over the input left to
    right without overlaps (`String.prototype.matchAll`), and the last hit is spliced out and
    replaced. */
module StringReplaceLast {
  import opened Wrappers
  import opened RegexpEscape

  /** `m` occurs in `s` starting at index `i`. */
  predicate Occurs(s: string, m: string, i: int) {
    0 <= i && i + |m| <= |s| && s[i..i + |m|] == m
  }

  /** No occurrence of `m` in `s` starts at an index in `[lo, hi)`. */
  predicate NoOccurrenceIn(s: string, m: string, lo: int, hi: int) {
    forall q | lo <= q < hi :: !Occurs(s, m, q)
  }

  /** How far a global scan advances after a hit: past the hit, or by one index after an empty
      hit, as `matchAll` does for zero-width matches. */
  function Step(m: string): (n: nat) {
    if |m| == 0 then 1 else |m|
  }

  /** The start indices `matchAll` reports for the literal `m`, scanning from index `p`. */
  function Hits(s: string, m: string, p: nat): (h: seq<nat>)
    ensures forall x | x in h :: p <= x && Occurs(s, m, x)
    decreases |s| + 1 - p
  {
    if p > |s| then []
    else if Occurs(s, m, p) then [p] + Hits(s, m, p + Step(m))
    else Hits(s, m, p + 1)
  }

  /** `Array.from(...).at(-1)`: the last hit of the scan, if any. */
  function LastHit(s: string, m: string): (i: Option<nat>)
    ensures i.Some? ==> Occurs(s, m, i.value)
  {
    var h := Hits(s, m, 0);
    if |h| == 0 then None else assert h[|h| - 1] in h; Some(h[|h| - 1])
  }

  /** The `replace` argument: a literal string or a function of the search string. */
  datatype Replacement = Text(text: string) | Computed(f: string -> string)

  /** The text spliced in: a function is called with the search string itself, a string is used
      verbatim (plain concatenation, so `$` patterns are not expanded). */
  function Inserted(rep: Replacement, m: string): (t: string) {
    match rep
    case Text(t) => t
    case Computed(f) => f(m)
  }

  /** `stringReplaceLast(str, match, replace)` for a string `match`. The regular expression built
      from `regexpEscape(match)` denotes the literal `match` (`UnescapeEscape`), and the scan runs
      over that literal. */
  function ReplaceLast(s: string, m: string, rep: Replacement): (r: string)
    ensures LastHit(s, m).None? ==> r == s
    ensures LastHit(s, m).Some? ==>
              var i := LastHit(s, m).value;
              |r| == |s| - |m| + |Inserted(rep, m)| && r[..i] == s[..i]
  {
    UnescapeEscape(m);
    var lit := Unescape(Escape(m)).value;
    match LastHit(s, lit)
    case None => s
    case Some(i) => s[..i] + Inserted(rep, m) + s[i + |lit|..]
  }

  /** Every entry of `h` is an occurrence. */
  ghost predicate AllOccur(s: string, m: string, h: seq<nat>) {
    forall k | 0 <= k < |h| :: Occurs(s, m, h[k])
  }

  /** Consecutive entries of `h` are at least a step apart, so hits do not overlap. */
  ghost predicate Spaced(m: string, h: seq<nat>) {
    forall k | 0 <= k < |h| - 1 :: h[k] + Step(m) <= h[k + 1]
  }

  /** No occurrence starts between the end of one entry's step and the next entry. */
  ghost predicate GapsClean(s: string, m: string, h: seq<nat>) {
    forall k | 0 <= k < |h| - 1 :: NoOccurrenceIn(s, m, h[k] + Step(m), h[k + 1])
  }

  /** The result of a scan is exactly the greedy left-to-right sequence of non-overlapping hits:
      every entry is an occurrence, entries are at least a step apart, and no occurrence is
      skipped between `p` and the first hit, between two hits, or after the last hit. */
  ghost predicate GreedyScan(s: string, m: string, p: nat, h: seq<nat>) {
    && (|h| > 0 ==> p <= h[0])
    && AllOccur(s, m, h)
    && Spaced(m, h)
    && NoOccurrenceIn(s, m, p, if |h| == 0 then |s| + 1 else h[0])
    && GapsClean(s, m, h)
    && (|h| > 0 ==> NoOccurrenceIn(s, m, h[|h| - 1] + Step(m), |s| + 1))
  }

  /** An occurrence cannot start past the end of the string. */
  lemma OccursBound(s: string, m: string, q: int)
    requires Occurs(s, m, q)
    ensures q <= |s|
  {
  }

  /** The scan satisfies the greedy-scan description. */
  lemma {:induction false} HitsAreGreedy(s: string, m: string, p: nat)
    ensures GreedyScan(s, m, p, Hits(s, m, p))
    decreases |s| + 1 - p
  {
    if p > |s| {
    } else if Occurs(s, m, p) {
      HitsAreGreedy(s, m, p + Step(m));
      HitFirstStep(s, m, p, Hits(s, m, p + Step(m)));
    } else {
      HitsAreGreedy(s, m, p + 1);
      MissStep(s, m, p, Hits(s, m, p + 1));
    }
  }

  /** A greedy scan from `p + 1` is one from `p` when nothing occurs at `p`. */
  lemma MissStep(s: string, m: string, p: nat, h: seq<nat>)
    requires !Occurs(s, m, p)
    requires GreedyScan(s, m, p + 1, h)
    ensures GreedyScan(s, m, p, h)
  {
    var hi := if |h| == 0 then |s| + 1 else h[0];
    assert NoOccurrenceIn(s, m, p + 1, hi);
    assert NoOccurrenceIn(s, m, p, hi);
  }

  /** A hit at `p` followed by a greedy scan from one step further is a greedy scan from `p`. */
  lemma HitFirstStep(s: string, m: string, p: nat, t: seq<nat>)
    requires Occurs(s, m, p)
    requires GreedyScan(s, m, p + Step(m), t)
    ensures GreedyScan(s, m, p, [p] + t)
  {
    ConsTail(p, t);
    var h := [p] + t;
    assert AllOccur(s, m, h) by {
      forall k | 0 <= k < |h|
        ensures Occurs(s, m, h[k])
      {
        if k > 0 {
          assert h[k] == t[k - 1];
        }
      }
    }
    assert Spaced(m, h) by {
      forall k | 0 <= k < |h| - 1
        ensures h[k] + Step(m) <= h[k + 1]
      {
        if k > 0 {
          assert h[k] == t[k - 1] && h[k + 1] == t[k];
        }
      }
    }
    assert GapsClean(s, m, h) by {
      forall k | 0 <= k < |h| - 1
        ensures NoOccurrenceIn(s, m, h[k] + Step(m), h[k + 1])
      {
        if k > 0 {
          assert h[k] == t[k - 1] && h[k + 1] == t[k];
        }
      }
    }
    if |t| == 0 {
      assert h[|h| - 1] == p;
    } else {
      assert h[|h| - 1] == t[|t| - 1];
    }
  }

  /** Indexing into `[x] + t`. */
  lemma ConsTail(x: nat, t: seq<nat>)
    ensures ([x] + t)[0] == x && ([x] + t)[1..] == t
    ensures forall k | 0 <= k < |t| :: ([x] + t)[k + 1] == t[k]
  {
  }

  /** When nothing occurs from `p` on, the scan finds nothing. */
  lemma {:induction false} HitsNone(s: string, m: string, p: nat)
    requires NoOccurrenceIn(s, m, p, |s| + 1)
    ensures Hits(s, m, p) == []
    decreases |s| + 1 - p
  {
    if p <= |s| {
      HitsNone(s, m, p + 1);
    }
  }

  /** The scan skips the indices before the first occurrence at or after `p`. */
  lemma {:induction false} HitsSkip(s: string, m: string, p: nat, q: nat)
    requires p <= q && Occurs(s, m, q) && NoOccurrenceIn(s, m, p, q)
    ensures Hits(s, m, p) == [q] + Hits(s, m, q + Step(m))
    decreases q - p
  {
    OccursBound(s, m, q);
    if p < q {
      HitsSkip(s, m, p + 1, q);
    }
  }

  /** The greedy-scan description has exactly one solution, so it characterises the scan. */
  lemma {:induction false} GreedyScanUnique(s: string, m: string, p: nat, h: seq<nat>)
    requires GreedyScan(s, m, p, h)
    ensures h == Hits(s, m, p)
    decreases |h|
  {
    if |h| == 0 {
      HitsNone(s, m, p);
    } else {
      assert Occurs(s, m, h[0]);
      HitsSkip(s, m, p, h[0]);
      var t := h[1..];
      GreedyTail(s, m, p, h);
      GreedyScanUnique(s, m, h[0] + Step(m), t);
      assert h == [h[0]] + t;
    }
  }

  /** Dropping the first hit of a greedy scan leaves a greedy scan from one step after it. */
  lemma GreedyTail(s: string, m: string, p: nat, h: seq<nat>)
    requires GreedyScan(s, m, p, h) && |h| > 0
    ensures GreedyScan(s, m, h[0] + Step(m), h[1..])
  {
    var t := h[1..];
    assert AllOccur(s, m, t) by {
      forall k | 0 <= k < |t|
        ensures Occurs(s, m, t[k])
      {
        assert t[k] == h[k + 1];
      }
    }
    assert Spaced(m, t) by {
      forall k | 0 <= k < |t| - 1
        ensures t[k] + Step(m) <= t[k + 1]
      {
        assert t[k] == h[k + 1] && t[k + 1] == h[k + 2];
      }
    }
    assert GapsClean(s, m, t) by {
      forall k | 0 <= k < |t| - 1
        ensures NoOccurrenceIn(s, m, t[k] + Step(m), t[k + 1])
      {
        assert t[k] == h[k + 1] && t[k + 1] == h[k + 2];
      }
    }
    if |t| == 0 {
      assert NoOccurrenceIn(s, m, h[|h| - 1] + Step(m), |s| + 1);
    } else {
      assert h[0] + Step(m) <= h[1];
      assert NoOccurrenceIn(s, m, h[0] + Step(m), h[1]);
      assert t[|t| - 1] == h[|h| - 1];
    }
  }

  /** There is a last hit exactly when the search string occurs at all; the last hit is an
      occurrence, and every occurrence starts before the end of the last hit (so none lies wholly
      in the text after it). */
  lemma LastHitSpec(s: string, m: string)
    ensures LastHit(s, m).None? <==> NoOccurrenceIn(s, m, 0, |s| + 1)
    ensures LastHit(s, m).Some? ==>
              var i := LastHit(s, m).value;
              Occurs(s, m, i) && NoOccurrenceIn(s, m, i + Step(m), |s| + 1)
  {
    HitsAreGreedy(s, m, 0);
    var h := Hits(s, m, 0);
    if |h| > 0 {
      assert Occurs(s, m, h[0]);
    }
  }

  /** Every occurrence `q` starts inside the last hit's step: `i <= q < i + Step(m)` fails only
      to the left. In particular the rightmost occurrence is within one step of the last hit. */
  lemma LastHitCoversRightmost(s: string, m: string, q: int)
    requires Occurs(s, m, q)
    ensures LastHit(s, m).Some?
    ensures q < LastHit(s, m).value + Step(m)
  {
    LastHitSpec(s, m);
    OccursBound(s, m, q);
  }

  /** On a hit at `i` the result is one splice: `s[i..i+|m|] == m`, the result is
      `s[..i] + r + s[i+|m|..]`, the prefix is untouched and the length changes by `|r| - |m|`. */
  lemma ReplaceLastHit(s: string, m: string, rep: Replacement)
    requires LastHit(s, m).Some?
    ensures var i := LastHit(s, m).value;
            var ins := Inserted(rep, m);
            var r := ReplaceLast(s, m, rep);
            && i + |m| <= |s|
            && s[i..i + |m|] == m
            && r == s[..i] + ins + s[i + |m|..]
            && |r| == |s| - |m| + |ins|
            && r[..i] == s[..i]
            && r[i + |ins|..] == s[i + |m|..]
  {
    UnescapeEscape(m);
    var i := LastHit(s, m).value;
    var ins := Inserted(rep, m);
    var r := ReplaceLast(s, m, rep);
    assert r == s[..i] + ins + s[i + |m|..];
    assert r[..i] == s[..i];
    assert r[i + |ins|..] == s[i + |m|..];
  }

  /** The text after the replaced hit contains no occurrence of a non-empty search string. */
  lemma ReplaceLastSuffixClean(s: string, m: string, q: int)
    requires |m| > 0 && LastHit(s, m).Some?
    ensures !Occurs(s[LastHit(s, m).value + |m|..], m, q)
  {
    LastHitSpec(s, m);
    var i := LastHit(s, m).value;
    var suffix := s[i + |m|..];
    if Occurs(suffix, m, q) {
      assert s[i + |m| + q..i + |m| + q + |m|] == suffix[q..q + |m|];
      assert Occurs(s, m, i + |m| + q);
      assert false;
    }
  }

  /** A non-empty search string that does not occur leaves the input unchanged. */
  lemma ReplaceLastMiss(s: string, m: string, rep: Replacement)
    requires |m| > 0 && NoOccurrenceIn(s, m, 0, |s| + 1)
    ensures ReplaceLast(s, m, rep) == s
  {
    UnescapeEscape(m);
    LastHitSpec(s, m);
  }

  /** An empty search string hits at every index, the last being `|s|`, so the replacement text
      is appended. */
  lemma ReplaceLastEmpty(s: string, rep: Replacement)
    ensures ReplaceLast(s, "", rep) == s + Inserted(rep, "")
  {
    UnescapeEscape("");
    LastHitSpec(s, "");
    var i := LastHit(s, "").value;
    assert Occurs(s, "", |s|);
    assert i == |s|;
  }

  /** With overlapping occurrences the non-overlapping scan wins: in `"aaa"` the search string
      `"aa"` also starts at 1, but the scan hits only at 0. */
  lemma ReplaceLastOverlap()
    ensures Occurs("aaa", "aa", 1)
    ensures LastHit("aaa", "aa") == Some(0)
    ensures ReplaceLast("aaa", "aa", Text("X")) == "Xa"
  {
    assert Occurs("aaa", "aa", 0);
    assert !Occurs("aaa", "aa", 2);
    assert !Occurs("aaa", "aa", 3);
    assert Hits("aaa", "aa", 4) == [];
    assert Hits("aaa", "aa", 3) == [];
    assert Hits("aaa", "aa", 2) == [];
    assert Hits("aaa", "aa", 0) == [0];
    ReplaceLastHit("aaa", "aa", Text("X"));
  }

  /** A literal replacement is inserted verbatim, `$&` included, and the search string's
      metacharacters are matched literally. */
  lemma ReplaceLastVerbatim()
    ensures ReplaceLast("a.b", ".", Text("$&")) == "a$&b"
  {
    assert "a.b"[1..2] == ".";
    assert "a.b"[0..1] == "a";
    assert "a.b"[2..3] == "b";
    assert Occurs("a.b", ".", 1);
    assert !Occurs("a.b", ".", 0);
    assert !Occurs("a.b", ".", 2);
    assert Hits("a.b", ".", 2) == [];
    assert Hits("a.b", ".", 0) == [1];
    ReplaceLastHit("a.b", ".", Text("$&"));
  }

  /** A replacement function receives the search string and its value is what is inserted. */
  lemma ReplaceLastComputed(s: string, m: string, f: string -> string)
    requires LastHit(s, m).Some?
    ensures var i := LastHit(s, m).value;
            ReplaceLast(s, m, Computed(f)) == s[..i] + f(m) + s[i + |m|..]
  {
    ReplaceLastHit(s, m, Computed(f));
  }
}

=== FILE: wrappers.dfy ===
/** Failure-carrying result types shared by the model. */
module Wrappers {

  /** An optional value; `LastHit` and `Unescape` return one. */
  datatype Option<+T> = None | Some(value: T)

  /** A value or the error that a JavaScript `throw` would have carried. */
  datatype Result<+R, +E> = Success(value: R) | Failure(error: E)
}
